=== FILE: README.md ===
# Curling countdown timer — core model

A Dafny model of the controller behind a full-screen countdown display for
timing a curling game end by end (`CountdownTimer` in `panel.py`). Stripped
of its rendering, the controller is a small state machine advanced once a
second:

- the **clock** shows the signed remaining seconds as `[+]H:MM:SS`, black
  while time remains, white with a `+` once it has run out
  (`ClockText.TimerText`);
- the **background band** turns yellow in the last 15 minutes and red at
  zero (`Timer.BandOf`);
- the **stone grid** shows two rows of stones; throws alternate between the
  rows (`Pacing.RockIdxMapping`) and a stone flips to "thrown" when elapsed
  time says it should have been thrown (`Pacing.StoneIndex`,
  `Pacing.UpdateRockPacing`);
- the **progress bar** has one segment per end; a segment is redrawn only
  when its fill rose by at least the configured granularity or first reaches
  100 (`Progress.Fill`, `Progress.UpdateProgressBar`);
- an optional **elapsed-minute file** is rewritten when the whole minute
  changes (`Timer.MinuteToWrite`, the `written` output of a tick);
- a **zero banner** replaces the progress bar at zero, and a **maximum-time
  banner** replaces clock, zero banner and progress bar once the configured
  maximum time has elapsed; the latter takes precedence.

`Timer.Tick` is the one-second update (`update_countdown`), `Timer.Init` is
the end of the constructor (one second added back, one tick, a full grid
refresh), and `Timer.Simulate` runs k ticks as the periodic callback would.
`Timer.Inv` is the display invariant: `Init` establishes it and `Tick`
preserves it. It says that the clock, band, stone index and stored minute
follow the elapsed time, that pane visibility is a function of the remaining
time and of whether the maximum time has been reached, that a visible grid
shows exactly the throws before the stone index (when an end lasts at least
one second per stone), and that each visible progress segment is not above
its fill, lags it by less than the granularity, and is full when the fill is.

Files: `wrappers.dfy` (Option), `arith.dfy` (multiplication and floor
division facts), `clock_text.dfy`, `pacing.dfy`, `progress.dfy`,
`timer.dfy`.

Behaviour worth knowing:

- Every tick lowers the remaining seconds by one (panel.py:204), also below
  zero; from zero on the clock shows the overtime with a `+`.
- The stone index wraps to 0 at each end boundary (panel.py:217), so it
  only rises within an end (`Pacing.StoneIndexNonDecreasingWithinEnd`).
- The index shows every stone of every end when an end lasts at least one
  second per stone (`Pacing.EveryStoneReached`). With shorter ends it can
  jump by more than one in a tick, and the single-cell grid update of
  panel.py:196-199 leaves earlier throws unmarked
  (`Timer.ShortEndSkipsStones`).
- From start-up on (under the display invariant `Timer.Inv`), no tick
  lowers a stored segment value, whatever the granularity (`Timer.ProgressNeverDecreasesOnTick`).
  The store rule of panel.py:107-111 on its own keeps a value at most 100
  from falling only for a non-negative granularity
  (`Progress.ProgressNeverDecreases`).

## Model

| member | source | states |
|---|---|---|
| ClockText.Decompose | panel.py:173-175 | hours*3600 + mins*60 + secs equals the second count, with mins and secs below 60 |
| ClockText.DecomposeUnique | panel.py:173-175 | that decomposition is the only one with minutes and seconds below 60 |
| ClockText.Decimal | panel.py:178 | hours are written as decimal digits, at least one, with no leading zero |
| ClockText.Pad2 | panel.py:178 | minutes and seconds are written as exactly two decimal digits |
| ClockText.ParseDecimalOfDecimal | panel.py:178 | reading the hour digits back gives the hours |
| ClockText.ParseDecimalOfPad2 | panel.py:178 | reading two padded digits back gives the minutes or seconds |
| ClockText.HmsText | panel.py:173-178 | the `H:MM:SS` text is at least seven characters long and starts with a digit |
| ClockText.ParseHmsOfFields | panel.py:178 | cutting `H:MM:SS` at its two colons gives back the three fields it was built from |
| ClockText.HmsFieldsCanonical | panel.py:173-178 | the text is digits, a colon, two digits, a colon and two digits, and the minute and second fields read back below 60 |
| ClockText.HmsRoundTrip | panel.py:173-178 | reading `H:MM:SS` back gives the second count it was made from |
| ClockText.TimerText | panel.py:158-180 | white exactly when t <= 0, and a leading `+` exactly when t <= 0, so zero already counts as overtime |
| ClockText.ZeroShowsOvertime | panel.py:162-178 | zero seconds show `+0:00:00` in white |
| ClockText.SignedRoundTrip | panel.py:164-178 | a `+` in front of a digit text negates the value read back; a text starting with a digit reads as it is |
| ClockText.ClockRoundTrip | panel.py:158-180 | reading the clock text back as `[+]H:MM:SS` gives t for every t, so the sign flip at zero loses nothing |
| ClockText.TimerTextInjective | panel.py:158-180 | two different second counts never show the same text |
| Pacing.IterationOrder | panel.py:64-69 | the interleave sends throw 2j to column j of the first row and throw 2j+1 to column j of the second row |
| Pacing.RockIdxMapping | panel.py:64-69 | the throw-to-cell table has one entry per stone of the end |
| Pacing.OddCountLeavesLastCell | panel.py:64-69 | with an odd stone count the table has n-1 entries, none of them the last cell |
| Pacing.MappingIsBijection | panel.py:64-69 | for an even stone count the interleave is a bijection on [0, n) with inverse StoneOrder |
| Pacing.MappingInjective | panel.py:64-69 | no two throws land in the same cell |
| Pacing.ThrowFirst | panel.py:188-195 | the refresh loop marks exactly the cells whose throw index is below the stone index |
| Pacing.UpdateRockPacing | panel.py:182-199 | index 0 clears the grid; a refresh shows exactly the first idx throws; otherwise only the cell of throw idx-1 becomes thrown and every other cell is unchanged |
| Pacing.ThrowNextExtendsPrefix | panel.py:196-199 | marking the next throw on a grid showing the first k throws shows the first k+1 |
| Pacing.StonesDue | panel.py:215-217 | the stones due q satisfy q*S <= elapsed*n < (q+1)*S, i.e. floor(elapsed / (S/n)) |
| Pacing.StoneIndex | panel.py:217 | the stone index is below n and congruent to the stones due modulo n |
| Pacing.StonesDueMonotone | panel.py:215-217 | more elapsed time never makes fewer stones due |
| Pacing.StonesDueStep | panel.py:215-217 | with ends of at least one second per stone, one second makes at most one more stone due |
| Pacing.EndBracket | panel.py:215-217 | a second inside end k makes between k*n and k*n+n-1 stones due |
| Pacing.StoneIndexWithinEnd | panel.py:215-217 | during end k the stones due lie in [k*n, k*n+n) and the index is their offset from k*n |
| Pacing.StoneIndexNonDecreasingWithinEnd | panel.py:215-217 | within one end the stone index never goes back |
| Pacing.ThrowInEnd | panel.py:215-217 | with ends of at least one second per stone, the first second at which throw j of end k is due lies inside end k |
| Pacing.ThrowTime | panel.py:215-217 | with ends of at least one second per stone, for every end k and throw j there is a second of end k at which exactly k*n+j stones are due |
| Pacing.EveryStoneReached | panel.py:215-217 | with ends of at least one second per stone, every index j < n is shown at some second of every end |
| Pacing.StartOfPlay | panel.py:215-217 | at elapsed 0 no stone is due and the index is 0 |
| Pacing.StoneIndexStep | panel.py:215-217 | with ends of at least one second per stone, one second keeps the index, advances it by one, or wraps it from n-1 to 0 |
| Progress.Fill | panel.py:106 | the fill is 0 before the end starts, 100 after it is over, and otherwise the floor of the elapsed percentage of the end |
| Progress.FillMonotone | panel.py:106 | a later moment never shows a segment less full |
| Progress.ProgressStep | panel.py:107-113 | the stored value becomes the fill when the fill rose by at least g or first reached 100, and is kept otherwise |
| Progress.UpdateProgressBar | panel.py:104-113 | one pass applies the store rule to every segment with that segment's own fill, keeping the segment count |
| Progress.ProgressNeverDecreases | panel.py:107-111 | with g >= 0 and a stored value at most 100 the stored value never decreases |
| Progress.FirstPassFillsAll | panel.py:104-111 | from the initial store of -g in every segment the first pass stores every segment's fill, which lies in [0, 100] |
| Progress.ProgressLagBound | panel.py:107-113 | a stored value not above the fill stays not above it, equals it or lags it by less than g, and is 100 when the fill is |
| Timer.DefaultConfig | panel.py:19-33 | the defaults for every missing configuration key: 16 stones, 8 ends of 15 minutes, 105 minutes, no elapsed offset, no output file, no maximum, granularity 5 |
| Timer.MaxReached | panel.py:233 | the maximum time counts as reached when one is configured and the elapsed seconds are at least its whole minutes times 60 (the `max_s` of panel.py line 29) |
| Timer.BandOf | panel.py:207-212 | red exactly when remaining <= 0, yellow exactly when 0 < remaining < 900, light green exactly when remaining >= 900 |
| Timer.MinuteToWrite | panel.py:219-224 | a minute is written exactly when an output file is configured and the whole elapsed minute differs from the stored one, and the value is that minute |
| Timer.PaceGrid | panel.py:226-230 | from zero on, or when the stone index did not move, the grid is left as it was; otherwise the grid update without refresh runs: it clears the grid when the index wrapped to 0, and otherwise marks the cell of throw idx-1 |
| Timer.Countdown | panel.py:204-230 | remaining drops by 1; band, clock seconds and stone index follow the new remaining time; the stored minute changes only when a minute is written; the grid follows the pacing rule |
| Timer.Banners | panel.py:232-242 | once the maximum time is reached the clock, zero banner and progress bar are hidden and the maximum banner is shown, the grid untouched; otherwise from zero on the zero banner replaces the progress bar; otherwise one progress pass runs with the current elapsed time |
| Timer.Tick | panel.py:202-242 | remaining drops by 1; band, stone index and the second count the clock pane renders follow the new remaining time; the minute is written and stored only on change; the grid is hidden from zero on and otherwise updated only when the index moved; the maximum-time banner beats the zero banner, which beats a progress pass; grid hiding and the maximum banner are never undone |
| Timer.PreStart | panel.py:19-92 | before the first tick: one second added back to duration minus the configured elapsed time, a clock rendered before that second was added, the stored minute is the whole configured elapsed minute, stone 0, every segment stores -g, every cell unthrown, the banners hidden, clock, progress bar and grid shown |
| Timer.Init | panel.py:92-94 | start-up leaves remaining equal to duration minus the configured elapsed time and the grid showing exactly the throws before the stone index |
| Timer.InitWritesNothing | panel.py:23-24 | the start-up tick lands on the configured elapsed minute and writes nothing |
| Timer.TickKeepsGrid | panel.py:226-230 | with ends of at least one second per stone, a grid showing the first idx throws again shows the first idx' throws after a tick |
| Timer.PassKeepsLag | panel.py:104-113 | a progress pass one second later keeps every segment consistent with its fill |
| Timer.TickKeepsCore | panel.py:204-224 | a tick keeps clock, band, stone index and stored minute in step with the elapsed time |
| Timer.TickKeepsVisibility | panel.py:226-242 | a tick keeps pane visibility determined by remaining time and by the maximum time |
| Timer.TickKeepsProgress | panel.py:232-242 | a tick keeps stored segments in range and consistent with the fill while the bar is visible |
| Timer.TickPreservesInv | panel.py:202-242 | every tick preserves the display invariant |
| Timer.InitEstablishesInv | panel.py:92-94 | start-up establishes the display invariant |
| Timer.NextMinute | panel.py:220 | one more second changes the whole elapsed minute exactly when it completes a minute, and then by one |
| Timer.MinuteWrittenOncePerMinute | panel.py:219-224 | with an output file, a tick writes exactly at each whole minute, one more than the stored minute |
| Timer.FullStaysFull | panel.py:107-113 | under the invariant a segment that stores 100 still stores 100 after a tick, for any granularity |
| Timer.ProgressNeverDecreasesOnTick | panel.py:232-242 | under the invariant no tick lowers a stored segment value |
| Timer.TickLogStep | panel.py:219-224 | one tick keeps the invariant and never lowers the stored minute; a written minute is above the old one and becomes the stored one; nothing is written without an output file |
| Timer.Simulate | panel.py:244-246 | k ticks keep the invariant, lower remaining by k, keep the maximum banner and the grid hiding, and write strictly increasing minutes above the starting one, the last equal to the stored one, and none without an output file |
| Timer.DefaultClockText | panel.py:22 | the default duration of 105 minutes shows `1:45:00` |
| Timer.FreshStart | panel.py:19-35 | a start from the beginning with at least 15 minutes and no maximum is light green, stone 0, all panes but the banners visible; the defaults show `1:45:00` |
| Timer.ShortEndFirstTick | panel.py:196-199 | from an empty grid with 4 stones and 2-second ends one tick makes two stones due but marks only the second throw, in cell 2: the grid is exactly [unthrown, unthrown, thrown, unthrown] |
| Timer.ShortEndSkipsStones | panel.py:215-230 | with 4 stones and 2-second ends the first tick after start-up shows only cell 2 thrown while the stone index is 2, so the grid falls behind the index |

## Left out

- Rendering (panel.py:37-90, 120-156): HTML panes, margins, font sizes, the
  `np.zeros` segment image, figures, PNG assets. Panes are reduced to the
  values they show and their visibility flags; the clock pane is represented by the
  signed second count it renders (`Timer.ClockOf` gives its text and colour
  through `ClockText.TimerText`), not by its HTML wrapper. Which segment figures are redrawn is the
  store rule of `Progress.ProgressStep`, not a separate output.
- The elapsed-minute file write (panel.py:223-224) is I/O; it is the
  `written` value of a tick.
- Configuration loading and `main` (panel.py:249-268) are I/O; the
  configuration is the `Timer.Config` record with the defaults of
  panel.py:19-33. The end length, the duration and the configured elapsed
  time are taken as already converted to whole seconds: the truncation
  `int(x * 60)` of fractional minutes (panel.py:21-23) is not modelled.
- The maximum time stays in minutes (`Timer.Config.maxMin`) and is taken as
  already a whole number: the truncation `int(max_min)` of a fractional
  maximum (panel.py:29) is not modelled.
- The progress granularity (panel.py:33) is an integer in the model; a
  fractional granularity from the configuration file is not modelled.
- Scheduling (`start`, panel.py:244-246) is callback plumbing; `Timer.Simulate`
  stands for k callbacks.
- The unused `end` and `section_width` (panel.py:101-102) and the repeated
  fill computation (panel.py:116-118), which never changes the stored value.
- A zero stone count and a zero end length make the source raise a division
  by zero (panel.py:34, 217); `Timer.ValidConfig` requires both to be
  positive.
- Odd stone counts: the source runs with them, and its throw table then
  covers only n-1 throws and never marks the last cell
  (`Pacing.OddCountLeavesLastCell`; the table lookups of panel.py:193 and
  197 stay below n-1). The rest of the model requires an even stone count,
  so the display behaviour of an odd count is not modelled beyond that
  lemma.
- Negative end lengths: the source runs with a negative `min_per_end`
  without raising; the end length is a positive second count in the model
  (`secsPerEnd: nat` and `Timer.ValidConfig`), so that case is not
  modelled.
- Pacing.StoneIndex: uses exact rational arithmetic, floor(elapsed*n/S); the
  source divides by the float `S/n`, which can differ at rounding boundaries.
- Progress.Fill: uses exact arithmetic, floor((elapsed - e*S)*100/S); the
  source computes `x / S * 100` in floats, which can differ at rounding
  boundaries.
- Timer.TickKeepsGrid: holds only when an end lasts at least one second per
  stone; shorter ends are shown to break it (`Timer.ShortEndSkipsStones`).

=== FILE: arith.dfy ===
/** Facts about multiplication and Euclidean division by a positive
    number, used by the pacing and progress computations. For a positive
    divisor Dafny's `/` and `%` agree with Python's floor division. */
module Arith {

  /** Multiplying by a positive factor keeps the sign. */
  lemma MulSign(x: int, f: int)
    requires f > 0
    ensures x > 0 ==> x * f > 0
    ensures x < 0 ==> x * f < 0
    decreases if x < 0 then -x else x
  {
    if x > 0 {
      assert x * f == (x - 1) * f + f;
      if x > 1 { MulSign(x - 1, f); }
    } else if x < 0 {
      assert x * f == (x + 1) * f - f;
      if x < -1 { MulSign(x + 1, f); }
    }
  }

  /** Comparing two multiples of a positive factor compares the multipliers. */
  lemma MulCompare(a: int, b: int, f: int)
    requires f > 0
    ensures a * f < b * f <==> a < b
    ensures a * f <= b * f <==> a <= b
  {
    assert b * f - a * f == (b - a) * f;
    MulSign(b - a, f);
  }

  /** Floor division is characterised by its bracketing multiples. */
  lemma FloorUnique(x: int, f: int, q: int)
    requires f > 0
    requires q * f <= x < (q + 1) * f
    ensures x / f == q && x % f == x - q * f
  {
    var d := x / f;
    assert d * f <= x < (d + 1) * f;
    MulCompare(q, d + 1, f);
    MulCompare(d, q + 1, f);
    assert x - q * f == x - d * f;
  }

  /** A multiple of n leaves no remainder. */
  lemma MultipleModulo(laps: int, n: nat)
    requires n > 0
    ensures (laps * n) % n == 0
  {
    var w := laps * n;
    var d := w / n;
    var x := laps - d;
    assert w == d * n + w % n;
    assert x * n == laps * n - d * n;
    assert x * n == w % n;
  }
}

=== FILE: clock_text.dfy ===
/** The big clock of the display: a signed second count rendered as
    `[+]H:MM:SS`, in black while time remains and in white (with a `+`)
    once the countdown has reached zero and counts overtime upwards. */
module ClockText {
  import opened Wrappers

  datatype Color = Black | White

  /** What the clock pane shows: its text colour and its text. */
  datatype Clock = Clock(color: Color, text: string)

  /** Hours, minutes and seconds of a non-negative second count. */
  datatype Hms = Hms(hours: nat, mins: nat, secs: nat)

  /** Splits a second count by two successive divmods by 60. */
  function Decompose(total: nat): (p: Hms)
    ensures p.hours * 3600 + p.mins * 60 + p.secs == total
    ensures p.mins < 60 && p.secs < 60
  {
    var m := total / 60;
    Hms(m / 60, m % 60, total % 60)
  }

  /** The decomposition is the only one with minutes and seconds below 60. */
  lemma DecomposeUnique(total: nat, h: nat, m: nat, s: nat)
    requires h * 3600 + m * 60 + s == total
    requires m < 60 && s < 60
    ensures Decompose(total) == Hms(h, m, s)
  {
    var p := Decompose(total);
    assert (h * 60 + m) * 60 + s == total;
    assert total / 60 == h * 60 + m;
    assert (h * 60 + m) / 60 == h;
  }

  predicate IsDigit(c: char) {
    '0' <= c <= '9'
  }

  predicate AllDigits(s: string) {
    forall i :: 0 <= i < |s| ==> IsDigit(s[i])
  }

  function DigitChar(d: nat): (c: char)
    requires d < 10
    ensures IsDigit(c)
  {
    "0123456789"[d]
  }

  function DigitValue(c: char): (d: nat)
    requires IsDigit(c)
    ensures d < 10
  {
    (c as int) - ('0' as int)
  }

  lemma DigitValueOfChar(d: nat)
    requires d < 10
    ensures DigitValue(DigitChar(d)) == d
  {
  }

  /** Decimal digits of n without leading zeros (`{n:01d}`). */
  function Decimal(n: nat): (s: string)
    ensures 1 <= |s| && AllDigits(s)
    ensures s[0] == '0' ==> n == 0
    decreases n
  {
    if n < 10 then [DigitChar(n)] else Decimal(n / 10) + [DigitChar(n % 10)]
  }

  /** Exactly two decimal digits of n, zero-padded (`{n:02d}`). */
  function Pad2(n: nat): (s: string)
    requires n < 100
    ensures |s| == 2 && AllDigits(s)
  {
    [DigitChar(n / 10), DigitChar(n % 10)]
  }

  /** Reads a string of decimal digits back as a number. */
  function ParseDecimal(s: string): nat
    requires AllDigits(s)
  {
    if |s| == 0 then 0 else ParseDecimal(s[..|s| - 1]) * 10 + DigitValue(s[|s| - 1])
  }

  lemma {:induction false} ParseDecimalOfDecimal(n: nat)
    ensures ParseDecimal(Decimal(n)) == n
    decreases n
  {
    if n < 10 {
      DigitValueOfChar(n);
      assert Decimal(n)[..0] == [];
    } else {
      var s := Decimal(n);
      assert s[..|s| - 1] == Decimal(n / 10);
      ParseDecimalOfDecimal(n / 10);
      DigitValueOfChar(n % 10);
    }
  }

  lemma ParseDecimalOfPad2(n: nat)
    requires n < 100
    ensures ParseDecimal(Pad2(n)) == n
  {
    var s := Pad2(n);
    DigitValueOfChar(n / 10);
    DigitValueOfChar(n % 10);
    assert s[..1] == [DigitChar(n / 10)];
    assert s[..1][..0] == [];
  }

  /** `H:MM:SS` for a non-negative second count. */
  function HmsText(total: nat): (s: string)
    ensures |s| >= 7 && IsDigit(s[0])
  {
    var p := Decompose(total);
    Decimal(p.hours) + ":" + Pad2(p.mins) + ":" + Pad2(p.secs)
  }

  /** The clock text and colour for t seconds remaining. */
  function TimerText(t: int): (r: Clock)
    ensures r.color == White <==> t <= 0
    ensures |r.text| >= 7
    ensures r.text[0] == '+' <==> t <= 0
  {
    if t <= 0 then Clock(White, "+" + HmsText(-t)) else Clock(Black, HmsText(t))
  }

  /** At zero the clock already shows overtime. */
  lemma ZeroShowsOvertime()
    ensures TimerText(0) == Clock(White, "+0:00:00")
  {
    assert Decompose(0) == Hms(0, 0, 0);
  }

  /** The value of the three digit fields of `H:MM:SS`; None when a field
      holds anything but digits. */
  function FieldsValue(hs: string, ms: string, ss: string): Option<int>
  {
    if !AllDigits(hs) || !AllDigits(ms) || !AllDigits(ss) then None
    else Some(ParseDecimal(hs) * 3600 + ParseDecimal(ms) * 60 + ParseDecimal(ss))
  }

  /** Reads `H:MM:SS` back as a second count; None when malformed. */
  function ParseHms(body: string): Option<int>
  {
    if |body| < 7 || body[|body| - 6] != ':' || body[|body| - 3] != ':' then None
    else FieldsValue(body[..|body| - 6], body[|body| - 5..|body| - 3], body[|body| - 2..])
  }

  /** Reads a clock text back as the signed second count it shows; None
      when the text is not of the form `[+]H:MM:SS`. */
  function ParseClock(text: string): Option<int>
  {
    if |text| > 0 && text[0] == '+' then
      match ParseHms(text[1..])
      case Some(v) => Some(-v)
      case None => None
    else ParseHms(text)
  }

  /** The three fields of `H:MM:SS` can be cut back out of the text. */
  lemma HmsFields(hs: string, ms: string, ss: string)
    requires |ms| == 2 && |ss| == 2
    ensures var body := hs + ":" + ms + ":" + ss;
      && |body| == |hs| + 6
      && body[..|body| - 6] == hs
      && body[|body| - 6] == ':' && body[|body| - 3] == ':'
      && body[|body| - 5..|body| - 3] == ms
      && body[|body| - 2..] == ss
  {
  }

  /** Reading `H:MM:SS` built from digit fields gives back the fields. */
  lemma ParseHmsOfFields(hs: string, ms: string, ss: string)
    requires |hs| >= 1 && |ms| == 2 && |ss| == 2
    ensures ParseHms(hs + ":" + ms + ":" + ss) == FieldsValue(hs, ms, ss)
  {
    HmsFields(hs, ms, ss);
  }

  /** The minute and second fields of `H:MM:SS` are two digits each and
      read back below 60, so every count has its one canonical text. */
  lemma HmsFieldsCanonical(total: nat)
    ensures var s := HmsText(total); var n := |s|;
      && s[n - 6] == ':' && s[n - 3] == ':'
      && AllDigits(s[..n - 6]) && AllDigits(s[n - 5..n - 3]) && AllDigits(s[n - 2..])
      && ParseDecimal(s[n - 5..n - 3]) < 60 && ParseDecimal(s[n - 2..]) < 60
  {
    var p := Decompose(total);
    HmsFields(Decimal(p.hours), Pad2(p.mins), Pad2(p.secs));
    ParseDecimalOfPad2(p.mins);
    ParseDecimalOfPad2(p.secs);
  }

  lemma HmsRoundTrip(total: nat)
    ensures ParseHms(HmsText(total)) == Some(total)
  {
    var p := Decompose(total);
    var hs, ms, ss := Decimal(p.hours), Pad2(p.mins), Pad2(p.secs);
    assert HmsText(total) == hs + ":" + ms + ":" + ss;
    ParseHmsOfFields(hs, ms, ss);
    ParseDecimalOfDecimal(p.hours);
    ParseDecimalOfPad2(p.mins);
    ParseDecimalOfPad2(p.secs);
    assert FieldsValue(hs, ms, ss) == Some(p.hours * 3600 + p.mins * 60 + p.secs);
  }

  /** Reading back a signed clock text: a leading `+` marks zero or
      overtime, and a digit first character marks time remaining. */
  lemma SignedRoundTrip(t: int, h: string)
    requires |h| > 0 && IsDigit(h[0])
    requires ParseHms(h) == Some(if t <= 0 then -t else t)
    ensures ParseClock(if t <= 0 then "+" + h else h) == Some(t)
  {
    if t <= 0 {
      assert ("+" + h)[1..] == h;
    }
  }

  /** The clock text determines the second count: reading it back gives t,
      including t == 0, which is shown as `+0:00:00`. */
  lemma ClockRoundTrip(t: int)
    ensures ParseClock(TimerText(t).text) == Some(t)
  {
    var a: nat := if t <= 0 then -t else t;
    HmsRoundTrip(a);
    SignedRoundTrip(t, HmsText(a));
  }

  /** Two different second counts never show the same clock text. */
  lemma TimerTextInjective(t1: int, t2: int)
    requires TimerText(t1).text == TimerText(t2).text
    ensures t1 == t2
  {
    ClockRoundTrip(t1);
    ClockRoundTrip(t2);
  }
}

=== FILE: pacing.dfy ===
/** Stone pacing: which stones of the end should have been thrown by now.
    The grid shows the two teams' stones in two rows of n/2 cells; the
    throw order alternates between the rows, so the k-th throw (counting
    from 0) lands in the cell `RockIdxMapping(n)[k]`. A grid is a row-major
    `seq<bool>` in which `true` means "thrown". */
module Pacing {
  import opened Arith

  /** A stone count whose interleave covers every cell of the grid:
      positive and even (`OddCountLeavesLastCell` shows what odd counts do). */
  predicate ValidStoneCount(n: nat) {
    n > 0 && n % 2 == 0
  }

  /** The first 2k entries of the interleave over two rows of `half`
      cells: throw 2j goes to column j of the first row, throw 2j+1 to
      column j of the second row. */
  function IterationOrder(half: nat, k: nat): (order: seq<nat>)
    requires k <= half
    ensures |order| == 2 * k
    ensures forall i :: 0 <= i < 2 * k ==>
      order[i] == (if i % 2 == 0 then i / 2 else i / 2 + half)
  {
    if k == 0 then [] else IterationOrder(half, k - 1) + [k - 1, k - 1 + half]
  }

  /** Throw index to grid cell. */
  function RockIdxMapping(n: nat): (m: seq<nat>)
    requires ValidStoneCount(n)
    ensures |m| == n
  {
    IterationOrder(n / 2, n / 2)
  }

  /** With an odd stone count the interleave covers only n-1 throws and
      never names the last cell, so that cell is never marked thrown. */
  lemma OddCountLeavesLastCell(n: nat)
    requires n % 2 == 1
    ensures |IterationOrder(n / 2, n / 2)| == n - 1
    ensures forall i :: 0 <= i < n - 1 ==> IterationOrder(n / 2, n / 2)[i] < n - 1
  {
  }

  /** Grid cell to throw index: the inverse of the interleave. */
  function StoneOrder(n: nat, cell: nat): nat
  {
    if cell < n / 2 then 2 * cell else 2 * (cell - n / 2) + 1
  }

  /** The interleave is a bijection on [0, n): StoneOrder inverts it on
      both sides. */
  lemma MappingIsBijection(n: nat)
    requires ValidStoneCount(n)
    ensures forall i :: 0 <= i < n ==>
      RockIdxMapping(n)[i] < n && StoneOrder(n, RockIdxMapping(n)[i]) == i
    ensures forall cell :: 0 <= cell < n ==>
      StoneOrder(n, cell) < n && RockIdxMapping(n)[StoneOrder(n, cell)] == cell
  {
  }

  /** No two throws land in the same cell. */
  lemma MappingInjective(n: nat, i: nat, j: nat)
    requires ValidStoneCount(n)
    requires i < n && j < n && i != j
    ensures RockIdxMapping(n)[i] != RockIdxMapping(n)[j]
  {
    MappingIsBijection(n);
  }

  /** The grid after the first k throws of an end: a cell is thrown exactly
      when its throw index is below k. */
  function Thrown(n: nat, k: nat): seq<bool>
  {
    seq(n, (cell: int) requires 0 <= cell => StoneOrder(n, cell) < k)
  }

  /** The refresh loop: start from an unthrown grid and mark the cells of
      throws 0 .. k-1 one by one. */
  function ThrowFirst(n: nat, k: nat): (grid: seq<bool>)
    requires ValidStoneCount(n) && k <= n
    ensures grid == Thrown(n, k)
  {
    if k == 0 then seq(n, _ => false)
    else
      var prev := ThrowFirst(n, k - 1);
      var cellK := RockIdxMapping(n)[k - 1];
      MappingIsBijection(n);
      assert forall cell :: 0 <= cell < n ==> (cell == cellK <==> StoneOrder(n, cell) == k - 1);
      prev[cellK := true]
  }

  /** The grid update for the current stone index `idx`: reset on index 0,
      a full refresh on `init`, otherwise mark the one stone just thrown. */
  function UpdateRockPacing(n: nat, grid: seq<bool>, idx: nat, init: bool): (r: seq<bool>)
    requires ValidStoneCount(n)
    requires |grid| == n && idx < n
    ensures |r| == n
    ensures idx == 0 ==> forall cell :: 0 <= cell < n ==> !r[cell]
    ensures idx > 0 && init ==> r == Thrown(n, idx)
    ensures idx > 0 && !init ==> forall cell :: 0 <= cell < n ==>
      r[cell] == (grid[cell] || StoneOrder(n, cell) == idx - 1)
  {
    MappingIsBijection(n);
    if idx == 0 then seq(n, _ => false)
    else if init then ThrowFirst(n, idx)
    else grid[RockIdxMapping(n)[idx - 1] := true]
  }

  /** Marking the next stone of a grid showing the first k throws gives the
      grid showing the first k+1 throws. */
  lemma ThrowNextExtendsPrefix(n: nat, k: nat)
    requires ValidStoneCount(n) && k + 1 < n
    ensures UpdateRockPacing(n, Thrown(n, k), k + 1, false) == Thrown(n, k + 1)
  {
    var r := UpdateRockPacing(n, Thrown(n, k), k + 1, false);
    forall cell | 0 <= cell < n
      ensures r[cell] == Thrown(n, k + 1)[cell]
    {
    }
  }

  /** Number of stones that should have been thrown after `elapsed`
      seconds, counted over all ends: floor(elapsed / (secsPerEnd / n)). */
  function StonesDue(n: nat, secsPerEnd: nat, elapsed: int): (q: int)
    requires secsPerEnd > 0
    ensures q * secsPerEnd <= elapsed * n < (q + 1) * secsPerEnd
  {
    (elapsed * n) / secsPerEnd
  }

  /** The stone index shown: the stones due, counted modulo the stones of
      one end. */
  function StoneIndex(n: nat, secsPerEnd: nat, elapsed: int): (idx: nat)
    requires ValidStoneCount(n) && secsPerEnd > 0
    ensures idx < n
    ensures (StonesDue(n, secsPerEnd, elapsed) - idx) % n == 0
  {
    var q := StonesDue(n, secsPerEnd, elapsed);
    assert q - q % n == (q / n) * n;
    MultipleModulo(q / n, n);
    q % n
  }

  /** At the start of play no stone is due and the index is 0. */
  lemma StartOfPlay(n: nat, secsPerEnd: nat)
    requires ValidStoneCount(n) && secsPerEnd > 0
    ensures StonesDue(n, secsPerEnd, 0) == 0 && StoneIndex(n, secsPerEnd, 0) == 0
  {
    assert 0 * n == 0;
  }

  /** More elapsed time never means fewer stones due. */
  lemma StonesDueMonotone(n: nat, secsPerEnd: nat, e1: int, e2: int)
    requires secsPerEnd > 0 && e1 <= e2
    ensures StonesDue(n, secsPerEnd, e1) <= StonesDue(n, secsPerEnd, e2)
  {
    var q1 := StonesDue(n, secsPerEnd, e1);
    var q2 := StonesDue(n, secsPerEnd, e2);
    if n > 0 {
      MulCompare(e1, e2, n);
    }
    assert q1 * secsPerEnd < (q2 + 1) * secsPerEnd;
    MulCompare(q1, q2 + 1, secsPerEnd);
  }

  /** When an end lasts at least one second per stone, one more second
      makes at most one more stone due. */
  lemma StonesDueStep(n: nat, secsPerEnd: nat, e: int)
    requires secsPerEnd > 0 && n <= secsPerEnd
    ensures StonesDue(n, secsPerEnd, e) <= StonesDue(n, secsPerEnd, e + 1) <= StonesDue(n, secsPerEnd, e) + 1
  {
    StonesDueMonotone(n, secsPerEnd, e, e + 1);
    var q1 := StonesDue(n, secsPerEnd, e);
    var q2 := StonesDue(n, secsPerEnd, e + 1);
    assert (e + 1) * n == e * n + n;
    assert (q1 + 2) * secsPerEnd == (q1 + 1) * secsPerEnd + secsPerEnd;
    assert q2 * secsPerEnd < (q1 + 2) * secsPerEnd;
    MulCompare(q2, q1 + 2, secsPerEnd);
  }

  /** A time within end k makes between k*n and k*n + n - 1 stones due. */
  lemma EndBracket(n: nat, secsPerEnd: nat, k: int, e: int, q: int)
    requires n > 0 && secsPerEnd > 0
    requires k * secsPerEnd <= e < (k + 1) * secsPerEnd
    requires q * secsPerEnd <= e * n < (q + 1) * secsPerEnd
    ensures k * n <= q < (k + 1) * n
  {
    MulCompare(k * secsPerEnd, e, n);
    MulCompare(e, (k + 1) * secsPerEnd, n);
    assert (k * secsPerEnd) * n == (k * n) * secsPerEnd;
    assert ((k + 1) * secsPerEnd) * n == ((k + 1) * n) * secsPerEnd;
    MulCompare(k * n, q + 1, secsPerEnd);
    MulCompare(q, (k + 1) * n, secsPerEnd);
  }

  /** During end k (counting from 0) the stones due run from k*n to
      k*n + n - 1, and the stone index is their offset from k*n. */
  lemma StoneIndexWithinEnd(n: nat, secsPerEnd: nat, k: int, e: int)
    requires ValidStoneCount(n) && secsPerEnd > 0
    requires k * secsPerEnd <= e < (k + 1) * secsPerEnd
    ensures k * n <= StonesDue(n, secsPerEnd, e) < (k + 1) * n
    ensures StoneIndex(n, secsPerEnd, e) == StonesDue(n, secsPerEnd, e) - k * n
  {
    var q := StonesDue(n, secsPerEnd, e);
    EndBracket(n, secsPerEnd, k, e, q);
    assert (k + 1) * n == k * n + n;
    FloorUnique(q, n, k);
  }

  /** Within one end the stone index never goes back. */
  lemma StoneIndexNonDecreasingWithinEnd(n: nat, secsPerEnd: nat, k: int, e1: int, e2: int)
    requires ValidStoneCount(n) && secsPerEnd > 0
    requires k * secsPerEnd <= e1 <= e2 < (k + 1) * secsPerEnd
    ensures StoneIndex(n, secsPerEnd, e1) <= StoneIndex(n, secsPerEnd, e2)
  {
    StoneIndexWithinEnd(n, secsPerEnd, k, e1);
    StoneIndexWithinEnd(n, secsPerEnd, k, e2);
    StonesDueMonotone(n, secsPerEnd, e1, e2);
  }

  /** The least multiple of n at or above t, as a count of n's. */
  lemma CeilingDivision(t: int, n: nat) returns (e: int)
    requires n > 0
    ensures t <= e * n < t + n
  {
    e := (t + n - 1) / n;
  }

  /** A second whose stone count lies in end k's range of throws lies in
      end k itself. */
  lemma ThrowInEnd(n: nat, secsPerEnd: nat, k: nat, j: nat, e: int)
    requires n > 0 && n <= secsPerEnd && j < n
    requires (k * n + j) * secsPerEnd <= e * n < (k * n + j) * secsPerEnd + n
    ensures k * secsPerEnd <= e < (k + 1) * secsPerEnd
  {
    var s := secsPerEnd;
    assert (k * s) * n == (k * n) * s;
    assert (k * n) * s <= (k * n + j) * s by { MulCompare(k * n, k * n + j, s); }
    MulCompare(k * s, e, n);
    assert (k * n + j) * s <= (k * n + n - 1) * s by { MulCompare(k * n + j, k * n + n - 1, s); }
    assert ((k + 1) * s) * n == (k * n + n - 1) * s + s;
    MulCompare(e, (k + 1) * s, n);
  }

  /** The first second of end k at which throw j of that end is due. */
  lemma ThrowTime(n: nat, secsPerEnd: nat, k: nat, j: nat) returns (e: int)
    requires n > 0 && n <= secsPerEnd && j < n
    ensures (k * n + j) * secsPerEnd <= e * n < (k * n + j + 1) * secsPerEnd
    ensures k * secsPerEnd <= e < (k + 1) * secsPerEnd
  {
    e := CeilingDivision((k * n + j) * secsPerEnd, n);
    assert (k * n + j + 1) * secsPerEnd == (k * n + j) * secsPerEnd + secsPerEnd;
    ThrowInEnd(n, secsPerEnd, k, j, e);
  }

  /** When an end lasts at least one second per stone, every stone index
      j is shown at some second of every end k. */
  lemma EveryStoneReached(n: nat, secsPerEnd: nat, k: nat, j: nat)
    requires ValidStoneCount(n) && secsPerEnd > 0 && n <= secsPerEnd
    requires j < n
    ensures exists e :: k * secsPerEnd <= e < (k + 1) * secsPerEnd && StoneIndex(n, secsPerEnd, e) == j
  {
    var e := ThrowTime(n, secsPerEnd, k, j);
    FloorUnique(e * n, secsPerEnd, k * n + j);
    assert StonesDue(n, secsPerEnd, e) == k * n + j;
    StoneIndexWithinEnd(n, secsPerEnd, k, e);
  }

  /** A count that grows by at most one keeps its remainder, advances it
      by one, or wraps it from n-1 to 0. */
  lemma ModuloStep(q1: int, q2: int, n: nat)
    requires n > 0 && q1 <= q2 <= q1 + 1
    ensures q2 % n == q1 % n || (q1 % n + 1 < n && q2 % n == q1 % n + 1) || (q1 % n == n - 1 && q2 % n == 0)
  {
    var lap := q1 / n;
    assert lap * n <= q1 < (lap + 1) * n;
    if q2 < (lap + 1) * n {
      FloorUnique(q2, n, lap);
    } else {
      assert q2 == (lap + 1) * n;
      FloorUnique(q2, n, lap + 1);
    }
  }

  /** When an end lasts at least one second per stone, one more second
      keeps the stone index, advances it by one, or wraps it from the last
      stone back to 0. */
  lemma StoneIndexStep(n: nat, secsPerEnd: nat, e: int)
    requires ValidStoneCount(n) && secsPerEnd > 0 && n <= secsPerEnd
    ensures var i1 := StoneIndex(n, secsPerEnd, e);
      var i2 := StoneIndex(n, secsPerEnd, e + 1);
      i2 == i1 || (i1 + 1 < n && i2 == i1 + 1) || (i1 == n - 1 && i2 == 0)
  {
    StonesDueStep(n, secsPerEnd, e);
    ModuloStep(StonesDue(n, secsPerEnd, e), StonesDue(n, secsPerEnd, e + 1), n);
  }
}

=== FILE: progress.dfy ===
/** The per-end progress bar: one segment per end, filled with the share
    of that end's time already elapsed. The stored percentage of a segment
    is redrawn only when the fill has risen by at least the configured
    granularity, or has just reached 100. */
module Progress {
  import opened Arith

  /** Where floor(into * 100 / S) falls relative to 0 and 100. */
  lemma PercentBounds(into: int, secsPerEnd: nat)
    requires secsPerEnd > 0
    ensures into <= 0 ==> (into * 100) / secsPerEnd <= 0
    ensures into >= secsPerEnd ==> (into * 100) / secsPerEnd >= 100
    ensures 0 < into < secsPerEnd ==> 0 <= (into * 100) / secsPerEnd < 100
  {
    var x := into * 100;
    var v := x / secsPerEnd;
    assert v * secsPerEnd <= x < (v + 1) * secsPerEnd;
    if into <= 0 {
      MulCompare(v, 0, secsPerEnd);
    } else if into >= secsPerEnd {
      assert x >= 100 * secsPerEnd;
      MulCompare(v + 1, 100, secsPerEnd);
    } else {
      assert x < 100 * secsPerEnd;
      MulCompare(v, 100, secsPerEnd);
      MulCompare(v + 1, 0, secsPerEnd);
    }
  }

  /** Percentage of end `end` (counting from 0) that has elapsed after
      `elapsed` seconds of play: floor((elapsed - end*S) * 100 / S),
      clipped to [0, 100]. */
  function Fill(secsPerEnd: nat, end: nat, elapsed: int): (r: int)
    requires secsPerEnd > 0
    ensures 0 <= r <= 100
    ensures elapsed <= end * secsPerEnd ==> r == 0
    ensures elapsed >= (end + 1) * secsPerEnd ==> r == 100
    ensures end * secsPerEnd < elapsed < (end + 1) * secsPerEnd ==>
      r * secsPerEnd <= (elapsed - end * secsPerEnd) * 100 < (r + 1) * secsPerEnd
  {
    var into := elapsed - end * secsPerEnd;
    var v := (into * 100) / secsPerEnd;
    PercentBounds(into, secsPerEnd);
    assert (end + 1) * secsPerEnd == end * secsPerEnd + secsPerEnd;
    if v < 0 then 0 else if v > 100 then 100 else v
  }

  /** A later moment never shows a segment less full. */
  lemma FillMonotone(secsPerEnd: nat, end: nat, e1: int, e2: int)
    requires secsPerEnd > 0 && e1 <= e2
    ensures Fill(secsPerEnd, end, e1) <= Fill(secsPerEnd, end, e2)
  {
    var f1 := Fill(secsPerEnd, end, e1);
    var f2 := Fill(secsPerEnd, end, e2);
    var lo := end * secsPerEnd;
    assert (end + 1) * secsPerEnd == lo + secsPerEnd;
    if lo < e1 && e2 < lo + secsPerEnd {
      assert (e1 - lo) * 100 <= (e2 - lo) * 100;
      MulCompare(f1, f2 + 1, secsPerEnd);
    }
  }

  /** The store rule for one segment: the shown percentage `stored` is
      replaced by the computed `fill` when it rose by at least `g`, or
      when the fill first reaches 100. */
  function ProgressStep(stored: int, fill: int, g: int): (r: int)
    ensures r == stored || r == fill
    ensures r != stored ==> fill >= stored + g || (fill == 100 && stored != 100)
    ensures fill >= stored + g || (fill == 100 && stored != 100) ==> r == fill
  {
    if fill >= stored + g || (fill == 100 && stored != 100) then fill else stored
  }

  /** One redraw pass over all segments after `elapsed` seconds. */
  function UpdateProgressBar(secsPerEnd: nat, elapsed: int, shown: seq<int>, g: int): (r: seq<int>)
    requires secsPerEnd > 0
    ensures |r| == |shown|
    ensures forall e :: 0 <= e < |shown| ==>
      var fill := Fill(secsPerEnd, e, elapsed);
      r[e] == (if fill >= shown[e] + g || (fill == 100 && shown[e] != 100) then fill else shown[e])
  {
    seq(|shown|, (e: int) requires 0 <= e < |shown| => ProgressStep(shown[e], Fill(secsPerEnd, e, elapsed), g))
  }

  /** With a non-negative granularity and a stored value at most 100, the
      stored value never decreases. */
  lemma ProgressNeverDecreases(stored: int, fill: int, g: int)
    requires g >= 0 && stored <= 100
    ensures ProgressStep(stored, fill, g) >= stored
  {
  }

  /** The initial store holds -g in every segment, so the first pass
      replaces every segment by its fill, which lies in [0, 100]. */
  lemma FirstPassFillsAll(secsPerEnd: nat, elapsed: int, ends: nat, g: int)
    requires secsPerEnd > 0
    ensures var r := UpdateProgressBar(secsPerEnd, elapsed, seq(ends, _ => -g), g);
      forall e :: 0 <= e < ends ==> r[e] == Fill(secsPerEnd, e, elapsed) && 0 <= r[e] <= 100
  {
  }

  /** If the stored value does not exceed the current fill, after the step
      it still does not, it lags the fill by less than g unless it equals
      it, and a full segment is shown full. */
  lemma ProgressLagBound(stored: int, fill: int, g: int)
    requires stored <= fill <= 100
    ensures var r := ProgressStep(stored, fill, g);
      r <= fill && (r == fill || fill < r + g) && (fill == 100 ==> r == 100)
  {
  }
}

=== FILE: timer.dfy ===
/** The countdown controller: an immutable configuration, a display state,
    the one-second tick that advances it, and the start-up sequence. The
    rendering itself (panes, images, figures) is abstracted to the values
    the panes show and their visibility flags. */
module Timer {
  import opened Wrappers
  import opened ClockText
  import opened Pacing
  import opened Progress
  import Arith

  /** Configuration, read once. Durations are already in seconds; the
      maximum time stays in whole minutes as configured. */
  datatype Config = Config(
    numStones: nat,
    totalEnds: nat,
    secsPerEnd: nat,
    durationS: int,
    elapsedOffsetS: int,
    zeroMessage: string,
    elapsedOutFile: Option<string>,
    maxMin: Option<int>,
    maxMessage: string,
    progressUpdatePercentage: int)

  /** The defaults used for every key missing from the configuration file. */
  const DefaultConfig: Config := Config(
    numStones := 16,
    totalEnds := 8,
    secsPerEnd := 15 * 60,
    durationS := 105 * 60,
    elapsedOffsetS := 0,
    zeroMessage := "FINISH THIS END",
    elapsedOutFile := None,
    maxMin := None,
    maxMessage := "TIME'S UP",
    progressUpdatePercentage := 5)

  /** What the controller needs of its configuration: a stone count the
      grid interleave covers and a positive end length to divide by. */
  predicate ValidConfig(c: Config) {
    ValidStoneCount(c.numStones) && c.secsPerEnd > 0
  }

  /** Background colour of the display. `Green` is the colour before the
      first tick; the tick always picks one of the other three. */
  datatype Band = Green | LightGreen | Yellow | Red

  /** The display state. The clock pane is represented by the second
      count it renders; what it shows is `ClockOf(s)`. */
  datatype State = State(
    remaining: int,
    stoneIdx: nat,
    elapsedMin: int,
    endProgress: seq<int>,
    grid: seq<bool>,
    band: Band,
    clockSecs: int,
    countdownVisible: bool,
    zeroVisible: bool,
    maxVisible: bool,
    progressVisible: bool,
    gridVisible: bool)

  /** A tick's new state and the elapsed-minute value it writes out, if any. */
  datatype Step = Step(state: State, written: Option<int>)

  /** What the clock pane shows. */
  function ClockOf(s: State): Clock {
    TimerText(s.clockSecs)
  }

  function Elapsed(c: Config, s: State): int {
    c.durationS - s.remaining
  }

  /** The configured maximum time has been reached. */
  predicate MaxReached(c: Config, elapsed: int) {
    c.maxMin.Some? && elapsed >= c.maxMin.value * 60
  }

  /** Background band for the remaining seconds: red from zero on, yellow
      in the last 15 minutes, light green before. */
  function BandOf(remaining: int): (b: Band)
    ensures b == Red <==> remaining <= 0
    ensures b == Yellow <==> 0 < remaining < 900
    ensures b == LightGreen <==> remaining >= 900
  {
    if remaining <= 0 then Red else if remaining < 900 then Yellow else LightGreen
  }

  predicate WellFormed(c: Config, s: State) {
    |s.grid| == c.numStones && |s.endProgress| == c.totalEnds && s.stoneIdx < c.numStones
  }

  /** The elapsed-minute value to write out: only with an output file
      configured, and only when the whole minute differs from the stored one. */
  function MinuteToWrite(c: Config, stored: int, elapsed: int): (w: Option<int>)
    ensures w.Some? <==> c.elapsedOutFile.Some? && elapsed / 60 != stored
    ensures w.Some? ==> w.value == elapsed / 60
  {
    if c.elapsedOutFile.Some? && elapsed / 60 != stored then Some(elapsed / 60) else None
  }

  /** Stone pacing within a tick: hide the grid from zero on, otherwise
      update it when the stone index moved. */
  function PaceGrid(c: Config, grid: seq<bool>, prevIdx: nat, idx: nat, remaining: int): (r: seq<bool>)
    requires ValidConfig(c) && |grid| == c.numStones && idx < c.numStones
    ensures |r| == c.numStones
    ensures remaining <= 0 || idx == prevIdx ==> r == grid
    ensures remaining > 0 && idx != prevIdx ==> r == UpdateRockPacing(c.numStones, grid, idx, false)
  {
    if remaining <= 0 || idx == prevIdx then grid
    else UpdateRockPacing(c.numStones, grid, idx, false)
  }

  /** First half of a tick: count down, recolour, re-render the clock,
      recompute the stone index, record the minute written, and update or
      hide the stone grid. */
  function Countdown(c: Config, s: State): (t: State)
    requires ValidConfig(c) && WellFormed(c, s)
    ensures WellFormed(c, t)
    ensures t.remaining == s.remaining - 1
    ensures t.band == BandOf(t.remaining)
    ensures t.clockSecs == t.remaining
    ensures t.stoneIdx == StoneIndex(c.numStones, c.secsPerEnd, Elapsed(c, t))
    ensures t.elapsedMin == MinuteToWrite(c, s.elapsedMin, Elapsed(c, t)).GetOr(s.elapsedMin)
    ensures t.remaining <= 0 ==> !t.gridVisible && t.grid == s.grid
    ensures t.remaining > 0 ==> t.gridVisible == s.gridVisible
    ensures t.remaining > 0 && t.stoneIdx == s.stoneIdx ==> t.grid == s.grid
    ensures t.remaining > 0 && t.stoneIdx != s.stoneIdx ==>
      t.grid == UpdateRockPacing(c.numStones, s.grid, t.stoneIdx, false)
    ensures t.endProgress == s.endProgress
    ensures t.countdownVisible == s.countdownVisible && t.zeroVisible == s.zeroVisible
    ensures t.maxVisible == s.maxVisible && t.progressVisible == s.progressVisible
  {
    var rem := s.remaining - 1;
    var elapsed := c.durationS - rem;
    var idx := StoneIndex(c.numStones, c.secsPerEnd, elapsed);
    State(
      remaining := rem,
      stoneIdx := idx,
      elapsedMin := MinuteToWrite(c, s.elapsedMin, elapsed).GetOr(s.elapsedMin),
      endProgress := s.endProgress,
      grid := PaceGrid(c, s.grid, s.stoneIdx, idx, rem),
      band := BandOf(rem),
      clockSecs := rem,
      countdownVisible := s.countdownVisible,
      zeroVisible := s.zeroVisible,
      maxVisible := s.maxVisible,
      progressVisible := s.progressVisible,
      gridVisible := if rem <= 0 then false else s.gridVisible)
  }

  /** Second half of a tick: the maximum-time banner, else the zero
      banner, else a progress-bar pass. */
  function Banners(c: Config, t: State): (u: State)
    requires ValidConfig(c)
    ensures u.remaining == t.remaining && u.stoneIdx == t.stoneIdx && u.elapsedMin == t.elapsedMin
    ensures u.grid == t.grid && u.band == t.band && u.clockSecs == t.clockSecs && u.gridVisible == t.gridVisible
    ensures |u.endProgress| == |t.endProgress|
    ensures MaxReached(c, Elapsed(c, t)) ==>
      && !u.countdownVisible && !u.zeroVisible && !u.progressVisible && u.maxVisible
      && u.endProgress == t.endProgress
    ensures !MaxReached(c, Elapsed(c, t)) && t.remaining <= 0 ==>
      && !u.progressVisible && u.zeroVisible
      && u.countdownVisible == t.countdownVisible && u.maxVisible == t.maxVisible
      && u.endProgress == t.endProgress
    ensures !MaxReached(c, Elapsed(c, t)) && t.remaining > 0 ==>
      && u.countdownVisible == t.countdownVisible && u.zeroVisible == t.zeroVisible
      && u.maxVisible == t.maxVisible && u.progressVisible == t.progressVisible
      && u.endProgress == UpdateProgressBar(c.secsPerEnd, Elapsed(c, t), t.endProgress, c.progressUpdatePercentage)
  {
    var elapsed := Elapsed(c, t);
    if MaxReached(c, elapsed) then
      t.(countdownVisible := false, zeroVisible := false, progressVisible := false, maxVisible := true)
    else if t.remaining <= 0 then
      t.(progressVisible := false, zeroVisible := true)
    else
      t.(endProgress := UpdateProgressBar(c.secsPerEnd, elapsed, t.endProgress, c.progressUpdatePercentage))
  }

  /** The once-per-second update. */
  function Tick(c: Config, s: State): (r: Step)
    requires ValidConfig(c) && WellFormed(c, s)
    ensures WellFormed(c, r.state)
    ensures r.state.remaining == s.remaining - 1
    ensures r.state.band == BandOf(r.state.remaining)
    ensures r.state.clockSecs == r.state.remaining
    ensures r.state.stoneIdx == StoneIndex(c.numStones, c.secsPerEnd, Elapsed(c, r.state))
    // elapsed-minute output
    ensures r.written.Some? <==> c.elapsedOutFile.Some? && Elapsed(c, r.state) / 60 != s.elapsedMin
    ensures r.written.Some? ==> r.written.value == Elapsed(c, r.state) / 60 == r.state.elapsedMin
    ensures r.written.None? ==> r.state.elapsedMin == s.elapsedMin
    // stone grid
    ensures r.state.remaining <= 0 ==> !r.state.gridVisible && r.state.grid == s.grid
    ensures r.state.remaining > 0 ==> r.state.gridVisible == s.gridVisible
    ensures r.state.remaining > 0 && r.state.stoneIdx == s.stoneIdx ==> r.state.grid == s.grid
    ensures r.state.remaining > 0 && r.state.stoneIdx != s.stoneIdx ==>
      r.state.grid == UpdateRockPacing(c.numStones, s.grid, r.state.stoneIdx, false)
    // banners and progress bar: the maximum-time banner wins over the zero banner
    ensures MaxReached(c, Elapsed(c, r.state)) ==>
      && !r.state.countdownVisible && !r.state.zeroVisible && !r.state.progressVisible && r.state.maxVisible
      && r.state.endProgress == s.endProgress
    ensures !MaxReached(c, Elapsed(c, r.state)) && r.state.remaining <= 0 ==>
      && !r.state.progressVisible && r.state.zeroVisible
      && r.state.countdownVisible == s.countdownVisible && r.state.maxVisible == s.maxVisible
      && r.state.endProgress == s.endProgress
    ensures !MaxReached(c, Elapsed(c, r.state)) && r.state.remaining > 0 ==>
      && r.state.countdownVisible == s.countdownVisible && r.state.zeroVisible == s.zeroVisible
      && r.state.maxVisible == s.maxVisible && r.state.progressVisible == s.progressVisible
      && r.state.endProgress == UpdateProgressBar(c.secsPerEnd, Elapsed(c, r.state), s.endProgress, c.progressUpdatePercentage)
    // nothing makes the grid or the maximum-time banner visible or hidden again
    ensures s.maxVisible ==> r.state.maxVisible
    ensures !s.gridVisible ==> !r.state.gridVisible
  {
    var t := Countdown(c, s);
    Step(Banners(c, t), MinuteToWrite(c, s.elapsedMin, Elapsed(c, t)))
  }

  /** The state the constructor has built just before its first tick: one
      second added back so that the tick lands on the configured start. */
  function PreStart(c: Config): (s: State)
    requires ValidConfig(c)
    ensures WellFormed(c, s)
    ensures s.remaining - 1 == c.durationS - c.elapsedOffsetS
    ensures s.clockSecs == s.remaining - 1
    ensures s.elapsedMin == c.elapsedOffsetS / 60
    ensures s.stoneIdx == 0
    ensures forall e :: 0 <= e < c.totalEnds ==> s.endProgress[e] + c.progressUpdatePercentage == 0
    ensures forall cell :: 0 <= cell < c.numStones ==> !s.grid[cell]
    ensures s.countdownVisible && s.progressVisible && s.gridVisible && !s.zeroVisible && !s.maxVisible
  {
    var remaining := c.durationS - c.elapsedOffsetS;
    State(
      remaining := remaining + 1,
      stoneIdx := 0,
      elapsedMin := (c.durationS - remaining) / 60,
      endProgress := seq(c.totalEnds, _ => -c.progressUpdatePercentage),
      grid := seq(c.numStones, _ => false),
      band := Green,
      clockSecs := remaining,
      countdownVisible := true,
      zeroVisible := false,
      maxVisible := false,
      progressVisible := true,
      gridVisible := true)
  }

  /** Start-up: one tick, then a full refresh of the stone grid. */
  function Init(c: Config): (s: State)
    requires ValidConfig(c)
    ensures WellFormed(c, s)
    ensures s.remaining == c.durationS - c.elapsedOffsetS
    ensures s.grid == Thrown(c.numStones, s.stoneIdx)
  {
    var t := Tick(c, PreStart(c)).state;
    var grid := UpdateRockPacing(c.numStones, t.grid, t.stoneIdx, true);
    assert t.stoneIdx == 0 ==> grid == Thrown(c.numStones, 0);
    t.(grid := grid)
  }

  /** The start-up tick lands on the configured elapsed time and so never
      writes the elapsed-minute file. */
  lemma InitWritesNothing(c: Config)
    requires ValidConfig(c)
    ensures Tick(c, PreStart(c)).written == None
  {
  }

  /** A stored segment value is consistent with the current fill: not
      above it, equal to it or less than g below it, and full when the
      fill is. */
  predicate LagOk(shown: int, fill: int, g: int) {
    shown <= fill && (shown == fill || fill < shown + g) && (fill == 100 ==> shown == 100)
  }

  /** The clock, band, stone index and stored minute follow the elapsed time. */
  predicate CoreInv(c: Config, s: State)
    requires ValidConfig(c)
  {
    && WellFormed(c, s)
    && s.band == BandOf(s.remaining)
    && s.clockSecs == s.remaining
    && s.stoneIdx == StoneIndex(c.numStones, c.secsPerEnd, Elapsed(c, s))
    && (c.elapsedOutFile.Some? ==> s.elapsedMin == Elapsed(c, s) / 60)
    && (c.elapsedOutFile.None? ==> s.elapsedMin == c.elapsedOffsetS / 60)
  }

  /** Which panes are visible is determined by the remaining time and by
      whether the maximum time has been reached. */
  predicate VisibilityInv(c: Config, s: State) {
    var maxed := MaxReached(c, Elapsed(c, s));
    && s.countdownVisible == !maxed
    && s.maxVisible == maxed
    && s.zeroVisible == (s.remaining <= 0 && !maxed)
    && s.progressVisible == (s.remaining > 0 && !maxed)
    && s.gridVisible == (s.remaining > 0)
  }

  /** A visible grid shows exactly the throws before the stone index, when
      an end lasts at least one second per stone. */
  predicate GridInv(c: Config, s: State) {
    c.numStones <= c.secsPerEnd && s.gridVisible ==>
      s.grid == Thrown(c.numStones, s.stoneIdx)
  }

  /** Every stored segment is the initial -g or a percentage; while the
      bar is visible each segment is consistent with its current fill. */
  predicate ProgressInv(c: Config, s: State)
    requires ValidConfig(c)
  {
    && (forall e :: 0 <= e < |s.endProgress| ==>
          s.endProgress[e] == -c.progressUpdatePercentage || 0 <= s.endProgress[e] <= 100)
    && (s.progressVisible ==> forall e :: 0 <= e < |s.endProgress| ==>
          LagOk(s.endProgress[e], Fill(c.secsPerEnd, e, Elapsed(c, s)), c.progressUpdatePercentage))
  }

  /** What holds of the display after start-up and after every tick. */
  predicate Inv(c: Config, s: State)
    requires ValidConfig(c)
  {
    CoreInv(c, s) && VisibilityInv(c, s) && GridInv(c, s) && ProgressInv(c, s)
  }

  /** Once reached, the maximum time stays reached. */
  lemma MaxReachedSticky(c: Config, e1: int, e2: int)
    requires e1 <= e2 && MaxReached(c, e1)
    ensures MaxReached(c, e2)
  {
  }

  /** With a visible, consistent grid before the tick, the grid after the
      tick again shows exactly the throws before the stone index, provided
      an end lasts at least one second per stone. */
  lemma TickKeepsGrid(c: Config, s: State)
    requires ValidConfig(c) && WellFormed(c, s)
    requires c.numStones <= c.secsPerEnd
    requires s.stoneIdx == StoneIndex(c.numStones, c.secsPerEnd, Elapsed(c, s))
    requires s.grid == Thrown(c.numStones, s.stoneIdx)
    ensures var r := Tick(c, s).state;
      r.remaining > 0 ==> r.grid == Thrown(c.numStones, r.stoneIdx)
  {
    var n := c.numStones;
    var r := Tick(c, s).state;
    assert Elapsed(c, r) == Elapsed(c, s) + 1;
    StoneIndexStep(n, c.secsPerEnd, Elapsed(c, s));
    if r.remaining > 0 && r.stoneIdx != s.stoneIdx {
      if r.stoneIdx == 0 {
        assert r.grid == Thrown(n, 0);
      } else {
        ThrowNextExtendsPrefix(n, s.stoneIdx);
      }
    }
  }

  /** A progress-bar pass keeps every consistent segment consistent with
      the fill one second later. */
  lemma PassKeepsLag(c: Config, shown: seq<int>, elapsed: int)
    requires ValidConfig(c)
    requires forall e :: 0 <= e < |shown| ==>
      LagOk(shown[e], Fill(c.secsPerEnd, e, elapsed), c.progressUpdatePercentage)
    ensures var r := UpdateProgressBar(c.secsPerEnd, elapsed + 1, shown, c.progressUpdatePercentage);
      forall e :: 0 <= e < |r| ==>
        LagOk(r[e], Fill(c.secsPerEnd, e, elapsed + 1), c.progressUpdatePercentage)
  {
    var g := c.progressUpdatePercentage;
    var r := UpdateProgressBar(c.secsPerEnd, elapsed + 1, shown, g);
    forall e | 0 <= e < |r|
      ensures LagOk(r[e], Fill(c.secsPerEnd, e, elapsed + 1), g)
    {
      FillMonotone(c.secsPerEnd, e, elapsed, elapsed + 1);
      ProgressLagBound(shown[e], Fill(c.secsPerEnd, e, elapsed + 1), g);
    }
  }

  /** A tick keeps clock, band, stone index and stored minute in step with
      the elapsed time. */
  lemma TickKeepsCore(c: Config, s: State)
    requires ValidConfig(c) && CoreInv(c, s)
    ensures CoreInv(c, Tick(c, s).state)
  {
  }

  /** A tick keeps the pane visibility determined by remaining time and
      the maximum time. */
  lemma TickKeepsVisibility(c: Config, s: State)
    requires ValidConfig(c) && WellFormed(c, s) && VisibilityInv(c, s)
    ensures VisibilityInv(c, Tick(c, s).state)
  {
    var elapsed := Elapsed(c, s);
    assert Elapsed(c, Tick(c, s).state) == elapsed + 1;
    if MaxReached(c, elapsed) {
      MaxReachedSticky(c, elapsed, elapsed + 1);
    }
  }

  /** A tick keeps the stored segments in range and, while the bar is
      visible, consistent with the fill. */
  lemma TickKeepsProgress(c: Config, s: State)
    requires ValidConfig(c) && WellFormed(c, s) && VisibilityInv(c, s) && ProgressInv(c, s)
    ensures ProgressInv(c, Tick(c, s).state)
  {
    var r := Tick(c, s).state;
    var elapsed := Elapsed(c, s);
    assert Elapsed(c, r) == elapsed + 1;
    if r.progressVisible {
      assert !MaxReached(c, elapsed + 1) && r.remaining > 0;
      PassKeepsLag(c, s.endProgress, elapsed);
    }
  }

  /** Every tick preserves the display invariant. */
  lemma TickPreservesInv(c: Config, s: State)
    requires ValidConfig(c) && Inv(c, s)
    ensures Inv(c, Tick(c, s).state)
  {
    TickKeepsCore(c, s);
    TickKeepsVisibility(c, s);
    TickKeepsProgress(c, s);
    var r := Tick(c, s).state;
    if c.numStones <= c.secsPerEnd && r.gridVisible {
      TickKeepsGrid(c, s);
    }
  }

  /** Start-up establishes the display invariant, with the clock at the
      configured duration minus the configured elapsed offset. */
  lemma InitEstablishesInv(c: Config)
    requires ValidConfig(c)
    ensures Inv(c, Init(c))
    ensures Init(c).remaining == c.durationS - c.elapsedOffsetS
  {
    var p := PreStart(c);
    var t := Tick(c, p).state;
    var s := Init(c);
    var g := c.progressUpdatePercentage;
    assert Elapsed(c, s) == c.elapsedOffsetS;
    InitWritesNothing(c);
    assert CoreInv(c, s);
    assert VisibilityInv(c, s);
    if s.progressVisible {
      FirstPassFillsAll(c.secsPerEnd, c.elapsedOffsetS, c.totalEnds, g);
      assert p.endProgress == seq(c.totalEnds, _ => -g);
    }
    assert ProgressInv(c, s);
  }

  /** One more second changes the whole minute exactly when it completes a
      minute, and then by one. */
  lemma NextMinute(e: int)
    ensures (e + 1) / 60 == (if (e + 1) % 60 == 0 then e / 60 + 1 else e / 60)
  {
    var m := e / 60;
    assert m * 60 <= e < (m + 1) * 60;
    if e + 1 == (m + 1) * 60 {
      Arith.FloorUnique(e + 1, 60, m + 1);
    } else {
      Arith.FloorUnique(e + 1, 60, m);
    }
  }

  /** With an output file configured, the elapsed minute is written exactly
      at each whole minute of elapsed time, and the value written is one
      more than the stored one. */
  lemma MinuteWrittenOncePerMinute(c: Config, s: State)
    requires ValidConfig(c) && CoreInv(c, s) && c.elapsedOutFile.Some?
    ensures var r := Tick(c, s);
      r.written == (if Elapsed(c, r.state) % 60 == 0 then Some(s.elapsedMin + 1) else None)
  {
    var r := Tick(c, s);
    var e := Elapsed(c, s);
    NextMinute(e);
    assert Elapsed(c, r.state) == e + 1;
    assert s.elapsedMin == e / 60;
    if (e + 1) % 60 == 0 {
      assert r.written.Some? && r.written.value == s.elapsedMin + 1;
    } else {
      assert r.written.None?;
    }
  }

  /** Under the invariant no tick lowers a stored segment value, whatever
      the granularity. */
  lemma ProgressNeverDecreasesOnTick(c: Config, s: State, e: nat)
    requires ValidConfig(c) && Inv(c, s) && e < c.totalEnds
    ensures Tick(c, s).state.endProgress[e] >= s.endProgress[e]
  {
    var r := Tick(c, s).state;
    var elapsed := Elapsed(c, s);
    if !MaxReached(c, elapsed + 1) && r.remaining > 0 {
      assert s.progressVisible;
      FillMonotone(c.secsPerEnd, e, elapsed, elapsed + 1);
    }
  }

  /** A segment that stores 100 stays at 100: once an end is full its
      segment stops updating. */
  lemma FullStaysFull(c: Config, s: State, e: nat)
    requires ValidConfig(c) && Inv(c, s) && e < c.totalEnds
    requires s.endProgress[e] == 100
    ensures Tick(c, s).state.endProgress[e] == 100
  {
    ProgressNeverDecreasesOnTick(c, s, e);
    TickPreservesInv(c, s);
  }

  /** One tick as seen by the elapsed-minute file: the invariant is kept,
      the stored minute never decreases, and a written minute is the new
      stored one and above the old. */
  lemma TickLogStep(c: Config, s: State)
    requires ValidConfig(c) && Inv(c, s)
    ensures var st := Tick(c, s);
      && Inv(c, st.state)
      && s.elapsedMin <= st.state.elapsedMin
      && (st.written.Some? ==> s.elapsedMin < st.written.value == st.state.elapsedMin)
      && (c.elapsedOutFile.None? ==> st.written.None?)
  {
    TickPreservesInv(c, s);
    if c.elapsedOutFile.Some? {
      MinuteWrittenOncePerMinute(c, s);
    }
  }

  predicate Increasing(log: seq<int>) {
    forall i, j :: 0 <= i < j < |log| ==> log[i] < log[j]
  }

  /** k seconds of the periodic callback: k ticks from s, collecting the
      values written to the elapsed-minute file. The file is rewritten only
      with strictly increasing minutes, the last one written is the one
      stored, and nothing is written without an output file. */
  method Simulate(c: Config, s: State, k: nat) returns (r: State, log: seq<int>)
    requires ValidConfig(c) && Inv(c, s)
    ensures Inv(c, r)
    ensures r.remaining == s.remaining - k
    ensures Increasing(log)
    ensures |log| > 0 ==> log[|log| - 1] == r.elapsedMin
    ensures forall i :: 0 <= i < |log| ==> s.elapsedMin < log[i]
    ensures c.elapsedOutFile.None? ==> log == []
    ensures s.maxVisible ==> r.maxVisible
    ensures !s.gridVisible ==> !r.gridVisible
  {
    r := s;
    log := [];
    var i := 0;
    while i < k
      invariant 0 <= i <= k
      invariant Inv(c, r)
      invariant r.remaining == s.remaining - i
      invariant Increasing(log)
      invariant |log| > 0 ==> log[|log| - 1] == r.elapsedMin
      invariant forall a :: 0 <= a < |log| ==> s.elapsedMin < log[a] <= r.elapsedMin
      invariant s.elapsedMin <= r.elapsedMin
      invariant c.elapsedOutFile.None? ==> log == []
      invariant s.maxVisible ==> r.maxVisible
      invariant !s.gridVisible ==> !r.gridVisible
    {
      var step := Tick(c, r);
      TickLogStep(c, r);
      if step.written.Some? {
        log := log + [step.written.value];
      }
      r := step.state;
      i := i + 1;
    }
  }

  /** The default clock text at start-up. */
  lemma DefaultClockText()
    ensures TimerText(105 * 60) == Clock(Black, "1:45:00")
  {
    assert Decompose(6300) == Hms(1, 45, 0);
  }

  /** Start-up from the beginning of the game with at least 15 minutes on
      the clock and no maximum time: light green, no stone thrown, progress
      bar and grid up, both banners hidden. The defaults are such a
      configuration and show 1:45:00. */
  lemma FreshStart(c: Config)
    requires ValidConfig(c) && c.elapsedOffsetS == 0 && c.durationS >= 900 && c.maxMin.None?
    ensures var s := Init(c);
      && s.remaining == c.durationS && s.band == LightGreen && s.stoneIdx == 0
      && ClockOf(s) == TimerText(c.durationS)
      && s.countdownVisible && s.progressVisible && s.gridVisible
      && !s.zeroVisible && !s.maxVisible
      && (c == DefaultConfig ==> ClockOf(s) == Clock(Black, "1:45:00"))
  {
    InitEstablishesInv(c);
    var s := Init(c);
    assert Elapsed(c, s) == 0;
    StartOfPlay(c.numStones, c.secsPerEnd);
    if c == DefaultConfig {
      DefaultClockText();
    }
  }

  /** One tick from an empty grid at the start of play with 4 stones and
      2-second ends: two stones are due, but only the second throw shows,
      in cell 2 (first column of the second row). */
  lemma ShortEndFirstTick(c: Config, s: State)
    requires ValidConfig(c) && WellFormed(c, s)
    requires c.numStones == 4 && c.secsPerEnd == 2
    requires Elapsed(c, s) == 0 && s.remaining > 1 && s.gridVisible
    requires s.stoneIdx == 0 && s.grid == Thrown(4, 0)
    ensures var r := Tick(c, s).state;
      r.stoneIdx == 2 && r.gridVisible && r.grid == [false, false, true, false]
      && r.grid != Thrown(4, 2)
  {
    var r := Tick(c, s).state;
    assert Elapsed(c, r) == 1;
    assert StonesDue(4, 2, 1) == 2;
    assert r.stoneIdx == 2;
    assert StoneOrder(4, 0) == 0;
    assert !r.grid[0];
    assert Thrown(4, 2)[0];
  }

  /** When an end is shorter than one second per stone, the stone index
      moves by more than one per tick and the single-cell update leaves the
      grid behind: with 4 stones and 2-second ends, the first tick after
      start-up shows only the second throw. */
  lemma ShortEndSkipsStones(c: Config)
    requires c.numStones == 4 && c.secsPerEnd == 2 && c.elapsedOffsetS == 0
    requires c.durationS > 1 && c.maxMin.None?
    ensures ValidConfig(c)
    ensures var r := Tick(c, Init(c)).state;
      r.stoneIdx == 2 && r.gridVisible && r.grid == [false, false, true, false]
      && r.grid != Thrown(4, 2)
  {
    InitEstablishesInv(c);
    var s := Init(c);
    assert Elapsed(c, s) == 0;
    StartOfPlay(4, 2);
    ShortEndFirstTick(c, s);
  }
}

=== FILE: wrappers.dfy ===
/** An optional value: a configuration entry that may be missing, a parse
    that may fail, a file write that may not happen. */
module Wrappers {

  datatype Option<T> = None | Some(value: T) {

    /** The held value, or `default` when there is none. */
    function GetOr(default: T): T {
      if Some? then value else default
    }
  }
}
